=== FILE: README.md ===
# Pizza order placement, modelled in Dafny

This project models the business logic of the pizza-ordering web application (`pizza2`). That
logic lives in its `OrderController`:

- a fixed **catalog** that maps a pizza id to a display name and a unit price;
- **`placeOrder`**, which looks up a customer by email. If one is found, it overwrites that
  customer's name and phone. Otherwise it inserts a new customer. It then saves one new order
  with a snapshot of the pizza name, `total = quantity × unit price` and status `PENDING`;
- **`checkOrderStatus`**, which looks an order up by id. It gives either the order or the
  message `Order not found with ID: <id>`.

The two JPA repositories are modelled as one immutable store value (`Store.State`):
- customers are a `map<int, Customer>` keyed by their id;
- orders are a `seq<Order>` in insertion order;
- each table has a counter for the next identity value, starting at 1.

Every controller operation is a pure function from a store to a new store or a view. The
modules follow the program's parts:

- `Base`: `Option`, `Result`, and `Int32` for Java's `int`.
- `Catalog`: the name and price tables.
- `Decimal`: Java's decimal rendering of an `int`, used in the error message, with a parser
  as its inverse.
- `Store`: the entities (`Customer`, `Order`, `OrderStatus`), the store invariant, and the
  repository lookups `findByEmail` and `findById`.
- `OrderController`: `PlaceOrder` and `CheckOrderStatus`.
- `Sessions`: what a sequence of submissions does, with each submission handled as its own
  request, plus three concrete example submissions.

Modelling decisions:

- **Prices are integers.** The catalog prices are the whole numbers 199.0, 249.0 and 329.0. The
  source computes `quantity * price` in `double`. For any Java `int` quantity, the exact product
  has magnitude below 2^53, so the `double` result is the exact integer product
  (`Catalog.TotalIsExactInDouble`). No rounding is lost by using `int`. The one difference is
  that Java yields negative zero (`-0.0`) for a negative quantity of an unknown pizza. An `int`
  0 cannot show that sign.
- **Request parameters have Java `int` range** (`Int32`). Quantity is not validated, so zero and
  negative quantities are accepted, as in the code. A positive quantity is expected but never
  enforced, and the model follows the code.
- **`findByEmail` returns an `Optional<Customer>`.** A Spring Data query of that shape raises an
  error when more than one row matches. The model therefore has three outcomes: not found,
  found, or ambiguous. In the ambiguous case `PlaceOrder` fails before anything is written. The
  schema does not make email unique. Emails are compared as exact strings. Under that matching,
  the model proves that the controller's own lookup-then-insert never creates a second customer
  for an email (`OrderController.PlaceOrder`, `Sessions.RunKeepsOneCustomerPerEmail`). So, still
  under exact matching, the ambiguous case can only arise from data written some other way, or
  from concurrent submissions, which are not modelled.
- `Customer.java` and `OrderItem.java` are not part of this model. Their fields are the ones the
  controller sets: name, email and phone; customer, pizza id, pizza name, quantity, total price
  and status.

## Model

| member | source | states |
|---|---|---|
| `Catalog.PizzaName` | pizza2/src/main/java/com/example/pizza/controller/OrderController.java:32-34 | Ids 1, 2 and 3 give the names "Margherita", "Pepperoni" and "Veggie Delight". Every other id gives an absent name (Java `null`) and no error. |
| `Catalog.UnitPrice` | pizza2/src/main/java/com/example/pizza/controller/OrderController.java:36-38 | The price lookup is total. Ids 1, 2 and 3 cost 199, 249 and 329. Every other id gets the default 0 of `getOrDefault`, never an error. The result is never above 329. |
| `Catalog.NamedIffPriced` | pizza2/src/main/java/com/example/pizza/controller/OrderController.java:31-39 | The two static tables cover the same ids. An order gets a pizza name exactly when it is charged a non-zero unit price. |
| `Catalog.TotalIsExactInDouble` | pizza2/src/main/java/com/example/pizza/controller/OrderController.java:106 | For any Java `int` quantity, `quantity * unitPrice` lies strictly between -2^53 and 2^53. So the `double` product in the source equals the integer product used here. |
| `Decimal.IntToStringRoundTrip` | pizza2/src/main/java/com/example/pizza/controller/OrderController.java:173 | Parsing the decimal rendering of any integer, negative ones included, gives that integer back. |
| `Decimal.IntToString` | pizza2/src/main/java/com/example/pizza/controller/OrderController.java:173 | Java's rendering of an `int` in string concatenation is in standard form. That is digits after an optional `-`, with no leading `0` unless the string is "0", and no "-0". The result starts with `-` exactly when the integer is negative. |
| `Decimal.CanonicalIntRoundTrip` | pizza2/src/main/java/com/example/pizza/controller/OrderController.java:173 | Every string in Java's standard integer form is the rendering of the integer it parses to. The standard form is digits after an optional `-`, with no leading `0` unless the string is "0", and no "-0". So rendering is a bijection between integers and strings of that form. |
| `Decimal.IntToStringInjective` | pizza2/src/main/java/com/example/pizza/controller/OrderController.java:173 | Two integers with the same decimal rendering are equal, so the not-found message identifies the requested id. |
| `Store.FindByEmail` | pizza2/src/main/java/com/example/pizza/repository/CustomerRepository.java:10 | The lookup reports not-found exactly when no stored customer has the email, and ambiguous exactly when two or more do. Otherwise it returns the stored record of the only customer with that email. |
| `Store.SameEmailUpdate` | pizza2/src/main/java/com/example/pizza/controller/OrderController.java:85-89 | Saving an existing customer back with a new name and phone leaves the set of emails on file unchanged. It also keeps emails unique. |
| `Store.FreshEmailInsert` | pizza2/src/main/java/com/example/pizza/controller/OrderController.java:92-96 | Inserting a customer under a fresh id with an unseen email adds exactly that email and one customer. It also keeps emails unique. |
| `Store.CustomerCountIsEmailCount` | pizza2/src/main/java/com/example/pizza/controller/OrderController.java:80-97 | When no two customers share an email, the number of customers equals the number of distinct emails on file. |
| `Store.FindOrder` | pizza2/src/main/java/com/example/pizza/controller/OrderController.java:169 | Lookup by id returns a stored order carrying that id. It is absent exactly when no stored order carries it. |
| `Store.FindOrderUnique` | pizza2/src/main/java/com/example/pizza/controller/OrderController.java:169 | When no two orders share an id, lookup by a stored order's id returns that very order. |
| `Store.FindOrderAppend` | pizza2/src/main/java/com/example/pizza/controller/OrderController.java:113 | Saving a new order does not change what a lookup of an earlier id finds. The new order is found only by its own id. |
| `OrderController.PlaceOrder` | pizza2/src/main/java/com/example/pizza/controller/OrderController.java:71-116 | Failure happens exactly when two or more customers share the email. Each success appends one order and keeps every earlier order. The new order has a fresh, larger id, the input pizza id and quantity, the catalog name, total = quantity × unit price, and status `PENDING`. It references a customer holding the submitted name, email and phone. A new email inserts exactly one customer, `Customer(newId, name, email, phone)`, and changes no other. A known email adds no customer: the matched customer keeps its id and email, only its name and phone change, and no other customer changes. The email set gains the submitted email. The customer count rises by one exactly when the email was new. At most one customer per email is preserved, and under that invariant the call always succeeds. The store invariant is kept: ids below the counters, every order referencing a stored customer, increasing order ids. |
| `OrderController.CheckOrderStatus` | pizza2/src/main/java/com/example/pizza/controller/OrderController.java:167-180 | The lookup is total. It shows an order exactly when some stored order has the id, and the order shown is a stored one with that id. Otherwise it returns an error message that is `Order not found with ID: ` followed by the id in Java's standard decimal form. That form has no leading zeros and a `-` only for negative ids, and it parses back to the requested id. |
| `OrderController.CheckOrderStatusShowsStoredOrder` | pizza2/src/main/java/com/example/pizza/controller/OrderController.java:169-176 | In a valid store, the status lookup for a stored order's id shows exactly that order. |
| `Sessions.Run` | pizza2/src/main/java/com/example/pizza/controller/OrderController.java:71-116 | Each submission is handled on its own. The rejected ones are exactly those whose email two or more customers of the starting store share, counted one per such submission. So a rejection does not stop the submissions after it. After n submissions with r rejected, the store is still valid, it holds exactly n − r more orders, and the earlier orders are an unchanged prefix. |
| `Sessions.MatchesAfterPlaceOrder` | pizza2/src/main/java/com/example/pizza/controller/OrderController.java:80-97 | A successful submission leaves the set of customers for every other email unchanged. Afterwards, exactly one customer holds the submitted email. |
| `Sessions.CountAmbiguousKept` | pizza2/src/main/java/com/example/pizza/controller/OrderController.java:80-97 | A successful submission does not change which emails are shared by two or more customers. So it does not change how many later submissions will be rejected. |
| `Sessions.PlaceOrderStep` | pizza2/src/main/java/com/example/pizza/controller/OrderController.java:80-97 | When every email is held by at most one customer, one submission succeeds and that still holds afterwards. The submitted email is added to the emails on file. |
| `Sessions.RunKeepsOneCustomerPerEmail` | pizza2/src/main/java/com/example/pizza/controller/OrderController.java:80-97 | From a store with one customer per email, no submission in any sequence is rejected. The emails on file become the old ones plus the submitted ones, each held by exactly one customer, so the customer count equals the number of emails. |
| `Sessions.CustomersAreDistinctEmails` | pizza2/src/main/java/com/example/pizza/controller/OrderController.java:80-113 | From an empty store, n submissions are all accepted and leave n orders. The number of customers equals the number of distinct submitted emails. |
| `Sessions.PlacedOrderIsVisible` | pizza2/src/main/java/com/example/pizza/controller/OrderController.java:169-177 | After a submission, the status lookup shows the new order under its id. Every other id gets the same answer as before. |
| `Sessions.FirstOrderScenario` | pizza2/src/main/java/com/example/pizza/controller/OrderController.java:90-107 | The first Alice order (pizza 1, quantity 3) on an empty store creates her customer. It creates one pending Margherita order totalling 597. |
| `Sessions.RepeatOrderScenario` | pizza2/src/main/java/com/example/pizza/controller/OrderController.java:83-89 | A second order from the same email adds no customer. It renames the customer to "Alice B." and adds a second order for the same customer. |
| `Sessions.UnknownPizzaScenario` | pizza2/src/main/java/com/example/pizza/controller/OrderController.java:103-106 | Pizza id 99 with quantity 2 is accepted. The order has no name, a zero total and status `PENDING`. |

## Left out

- Store.FindByEmail: emails are compared as exact strings. The lookup is a derived query, so the database does the comparison, and its collation is not modelled. Under a case-insensitive or space-padding collation, "a@x.com" and "A@x.com" would be one key for the lookup and two for the model. The database could then find two rows where the model sees one customer per email.
- OrderController.PlaceOrder: the `totalPrice` clause is over integers, so it does not show the sign of Java's `double` zero. A negative quantity of an unknown pizza gives `-0.0` in the source and 0 in the model.
- `viewOrders` pagination: the page slicing, `totalPages` and `hasNext` semantics belong to Spring Data's `PageRequest`/`Page`, which are not part of this model.
- `showForm`, `successPage`, the `Model` attributes, view names and the `redirect:/success` result: these are HTTP and rendering glue with no logic. `PlaceOrder` returns the new store instead of the redirect.
- JPA persistence: the repositories' `save`, `findByEmail` and `findById` are an abstract store with counter-based id allocation. The real engine's id generation and flushing are not modelled.
- Atomicity: the customer write and the order write are two separate saves in the source, with no transaction. The model applies both or, on an ambiguous lookup, neither. It does not model a failure between the two writes.
- Concurrency: the duplicate-customer race between simultaneous submissions with the same new email is outside a sequential model.
- The debug `System.out.println` of each order.
- Status transitions to `SHIPPED` or `DELIVERED`: no code performs them. The enum's three values are modelled, but only `PENDING` is produced.
- The `pizza` (first version) copy of the `OrderStatus` enum: it is identical to the `pizza2` enum.
- Store ids are unbounded integers. The overflow of a 32-bit identity column is not modelled.

=== FILE: base.dfy ===
/** Small shared vocabulary: optional values, results, and Java's 32-bit `int`. */
module Base {

  /** A value that may be absent (Java's `null` / `Optional.empty()`). */
  datatype Option<+T> = None | Some(value: T)

  /** Either a successful value or an error. */
  datatype Result<+R, +E> = Success(value: R) | Failure(error: E)

  const INT32_MIN: int := -0x8000_0000
  const INT32_MAX: int := 0x7fff_ffff

  /** Values of Java's primitive `int`. */
  type Int32 = x: int | INT32_MIN <= x <= INT32_MAX
}

=== FILE: catalog.dfy ===
/** The fixed pizza catalog of the order controller: id -> display name and id -> unit price.
    Prices are whole numbers, so they are kept as integers. */
module Catalog {
  import opened Base

  /** The id -> name table. */
  const Names: map<int, string> := map[1 := "Margherita", 2 := "Pepperoni", 3 := "Veggie Delight"]

  /** The id -> unit price table. */
  const Prices: map<int, int> := map[1 := 199, 2 := 249, 3 := 329]

  /** The largest unit price in the catalog. */
  const MAX_PRICE: int := 329

  /** Name lookup: absent (Java `null`) for an id that is not in the table. */
  function PizzaName(pizzaId: int): (r: Option<string>)
    ensures pizzaId == 1 ==> r == Some("Margherita")
    ensures pizzaId == 2 ==> r == Some("Pepperoni")
    ensures pizzaId == 3 ==> r == Some("Veggie Delight")
    ensures !(1 <= pizzaId <= 3) ==> r == None
  {
    if pizzaId in Names then Some(Names[pizzaId]) else None
  }

  /** Price lookup with default 0 for an unknown id; never an error. */
  function UnitPrice(pizzaId: int): (r: int)
    ensures pizzaId == 1 ==> r == 199
    ensures pizzaId == 2 ==> r == 249
    ensures pizzaId == 3 ==> r == 329
    ensures !(1 <= pizzaId <= 3) ==> r == 0
    ensures 0 <= r <= MAX_PRICE
  {
    if pizzaId in Prices then Prices[pizzaId] else 0
  }

  /** The two tables cover the same ids: an id has a name exactly when it has a non-zero price. */
  lemma NamedIffPriced(pizzaId: int)
    ensures PizzaName(pizzaId).Some? <==> UnitPrice(pizzaId) > 0
  {
  }

  /** Java computes `quantity * price` in `double`. For an `int` quantity and a catalog price the
      exact product has magnitude below 2^53, so the `double` result is the exact integer product. */
  lemma TotalIsExactInDouble(quantity: Int32, pizzaId: int)
    ensures -0x20_0000_0000_0000 < quantity * UnitPrice(pizzaId) < 0x20_0000_0000_0000
  {
    var p := UnitPrice(pizzaId);
    if quantity >= 0 {
      assert quantity * p <= quantity * MAX_PRICE <= INT32_MAX * MAX_PRICE;
    } else {
      assert quantity * p >= quantity * MAX_PRICE >= INT32_MIN * MAX_PRICE;
    }
  }
}

=== FILE: decimal.dfy ===
/** Java's rendering of an `int` in string concatenation (`"..." + id`): an optional minus sign,
    then the decimal digits with no leading zeros. A parser is given as its inverse, and the
    two are proved to be a bijection between the integers and the strings of that form. */
module Decimal {
  import opened Base

  predicate IsDigit(c: char) {
    '0' <= c <= '9'
  }

  predicate AllDigits(s: string) {
    forall i :: 0 <= i < |s| ==> IsDigit(s[i])
  }

  /** The standard form of a natural number: digits only, no leading zero unless it is "0". */
  predicate CanonicalNat(s: string) {
    |s| >= 1 && AllDigits(s) && (|s| > 1 ==> s[0] != '0')
  }

  /** The standard form of an integer: a natural number's form, or a minus sign followed by the
      form of a positive number (so "-0" is excluded). */
  predicate CanonicalInt(s: string) {
    CanonicalNat(s) || (|s| >= 2 && s[0] == '-' && CanonicalNat(s[1..]) && s[1] != '0')
  }

  function DigitChar(d: int): (c: char)
    requires 0 <= d < 10
    ensures IsDigit(c)
    ensures c as int - '0' as int == d
  {
    ('0' as int + d) as char
  }

  function DigitValue(c: char): (d: int)
    requires IsDigit(c)
    ensures 0 <= d < 10
    ensures DigitChar(d) == c
  {
    (c as int) - ('0' as int)
  }

  /** Decimal digits of a natural number, most significant first. */
  function NatToString(n: nat): (s: string)
    decreases n
    ensures CanonicalNat(s)
    ensures n > 0 ==> s[0] != '0'
  {
    if n < 10 then [DigitChar(n)] else NatToString(n / 10) + [DigitChar(n % 10)]
  }

  /** Java's `String.valueOf(int)` on the unbounded integers. */
  function IntToString(i: int): (s: string)
    ensures CanonicalInt(s)
    ensures (s[0] == '-') <==> i < 0
  {
    if i < 0 then
      var t := NatToString(-i);
      assert ("-" + t)[1..] == t;
      "-" + t
    else NatToString(i)
  }

  /** Value of a non-empty digit string. */
  function ParseNat(s: string): nat
    requires |s| >= 1 && AllDigits(s)
    decreases |s|
  {
    if |s| == 1 then DigitValue(s[0])
    else ParseNat(s[..|s| - 1]) * 10 + DigitValue(s[|s| - 1])
  }

  /** Value of an optionally signed digit string; absent when it is not one. */
  function ParseInt(s: string): (r: Option<int>)
  {
    if |s| >= 2 && s[0] == '-' && AllDigits(s[1..]) then Some(0 - (ParseNat(s[1..]) as int))
    else if |s| >= 1 && AllDigits(s) then Some(ParseNat(s))
    else None
  }

  lemma {:induction false} ParseNatToString(n: nat)
    ensures ParseNat(NatToString(n)) == n
    decreases n
  {
    if n >= 10 {
      var s := NatToString(n);
      var prefix := NatToString(n / 10);
      assert s == prefix + [DigitChar(n % 10)];
      assert s[..|s| - 1] == prefix;
      ParseNatToString(n / 10);
    }
  }

  /** Parsing the rendering of any integer gives it back. */
  lemma IntToStringRoundTrip(i: int)
    ensures ParseInt(IntToString(i)) == Some(i)
  {
    var s := IntToString(i);
    if i < 0 {
      var t := NatToString(-i);
      assert s == "-" + t;
      assert s[1..] == t;
      ParseNatToString(-i);
      assert ParseInt(s) == Some(0 - (ParseNat(t) as int));
    } else {
      assert s == NatToString(i);
      assert s[0] != '-';
      ParseNatToString(i);
    }
  }

  /** A digit string that does not start with '0' has a positive value. */
  lemma {:induction false} ParseNatPositive(s: string)
    requires |s| >= 1 && AllDigits(s) && s[0] != '0'
    ensures ParseNat(s) > 0
    decreases |s|
  {
    if |s| > 1 {
      assert s[..|s| - 1][0] == s[0];
      ParseNatPositive(s[..|s| - 1]);
    }
  }

  /** Rendering the value of a digit string in standard form gives the string back. */
  lemma {:induction false} NatToStringParse(s: string)
    requires CanonicalNat(s)
    ensures NatToString(ParseNat(s)) == s
    decreases |s|
  {
    if |s| > 1 {
      var prefix := s[..|s| - 1];
      assert prefix[0] == s[0];
      ParseNatPositive(prefix);
      NatToStringParse(prefix);
      var n := ParseNat(s);
      var d := DigitValue(s[|s| - 1]);
      assert n == ParseNat(prefix) * 10 + d;
      assert n / 10 == ParseNat(prefix) && n % 10 == d;
      assert s == prefix + [s[|s| - 1]];
    }
  }

  /** Every string in the standard integer form is the rendering of the integer it parses to. */
  lemma CanonicalIntRoundTrip(s: string)
    requires CanonicalInt(s)
    ensures ParseInt(s).Some? && IntToString(ParseInt(s).value) == s
  {
    if s[0] == '-' {
      var t := s[1..];
      ParseNatPositive(t);
      NatToStringParse(t);
      assert s == "-" + t;
    } else {
      NatToStringParse(s);
    }
  }

  /** Distinct integers render to distinct strings. */
  lemma IntToStringInjective(a: int, b: int)
    requires IntToString(a) == IntToString(b)
    ensures a == b
  {
    IntToStringRoundTrip(a);
    IntToStringRoundTrip(b);
  }
}

=== FILE: order_controller.dfy ===
/** The order controller's business logic as pure transitions over the store: placing an order
    (customer upsert by email, then one new order row) and looking an order up by id. */
module OrderController {
  import opened Base
  import opened Catalog
  import opened Store
  import opened Decimal

  /** The form fields of an order submission. */
  datatype Request = Request(customerName: string, email: string, phone: string, pizzaId: Int32, quantity: Int32)

  /** The customer lookup matched more than one stored customer, so the submission fails before
      anything is written. */
  datatype PlaceError = AmbiguousEmail(email: string)

  /** The order row built for a submission, for a resolved customer id and a fresh order id. */
  function NewOrder(orderId: int, customerId: int, req: Request): Order {
    Order(orderId, customerId, req.pizzaId, PizzaName(req.pizzaId), req.quantity,
          req.quantity * UnitPrice(req.pizzaId), Pending)
  }

  /** Saves a new order row; the order table assigns its next id. */
  function SaveOrder(s: State, customerId: int, req: Request): State {
    s.(orders := s.orders + [NewOrder(s.nextOrderId, customerId, req)],
       nextOrderId := s.nextOrderId + 1)
  }

  /** The last order of a non-empty state. */
  function LastOrder(s: State): Order
    requires |s.orders| > 0
  {
    s.orders[|s.orders| - 1]
  }

  /** Properties of the order that a successful submission appends. */
  predicate AppendsOrderFor(s: State, s': State, req: Request) {
    && |s'.orders| == |s.orders| + 1
    && s'.orders[..|s.orders|] == s.orders
    && var o := LastOrder(s');
       && (forall i :: 0 <= i < |s.orders| ==> s.orders[i].id < o.id)
       && o.pizzaId == req.pizzaId
       && o.quantity == req.quantity
       && o.pizzaName == PizzaName(req.pizzaId)
       && o.totalPrice == req.quantity * UnitPrice(req.pizzaId)
       && o.status == Pending
       && o.customerId in s'.customers
       && s'.customers[o.customerId].email == req.email
       && s'.customers[o.customerId].name == req.customerName
       && s'.customers[o.customerId].phone == req.phone
  }

  /** `placeOrder`: find the customer by email; overwrite name and phone if found, else insert a
      new customer; then append one pending order priced from the catalog. */
  function PlaceOrder(s: State, req: Request): (r: Result<State, PlaceError>)
    requires Valid(s)
    ensures r.Failure? <==> |Matches(s.customers, req.email)| >= 2
    ensures r.Failure? ==> r.error == AmbiguousEmail(req.email)
    ensures r.Success? ==> Valid(r.value) && AppendsOrderFor(s, r.value, req)
    // a new email inserts exactly one customer and touches no other
    ensures r.Success? && Matches(s.customers, req.email) == {} ==>
      var s' := r.value;
      var c := LastOrder(s').customerId;
      && c !in s.customers
      && s'.customers == s.customers[c := Customer(c, req.customerName, req.email, req.phone)]
      && |s'.customers| == |s.customers| + 1
    // a known email keeps the customer's id and email, replaces name and phone, touches no other
    ensures r.Success? && Matches(s.customers, req.email) != {} ==>
      var s' := r.value;
      var c := LastOrder(s').customerId;
      && Matches(s.customers, req.email) == {c}
      && s'.customers.Keys == s.customers.Keys
      && s'.customers[c] == s.customers[c].(name := req.customerName, phone := req.phone)
      && (forall k :: k in s.customers && k != c ==> s'.customers[k] == s.customers[k])
    // the submitted email is now on file, and a customer was added exactly when it was not before
    ensures r.Success? ==> Emails(r.value.customers) == Emails(s.customers) + {req.email}
    ensures r.Success? ==>
      |r.value.customers| == |s.customers| + (if req.email in Emails(s.customers) then 0 else 1)
    // the lookup-then-insert never creates a second customer for an email
    ensures AtMostOnePerEmail(s.customers) ==> r.Success? && AtMostOnePerEmail(r.value.customers)
  {
    match FindByEmail(s, req.email)
    case Ambiguous =>
      Failure(AmbiguousEmail(req.email))
    case Found(c) =>
      var updated := c.(name := req.customerName, phone := req.phone);
      var s1 := s.(customers := s.customers[c.id := updated]);
      SameEmailUpdate(s.customers, c.id, updated);
      Success(SaveOrder(s1, c.id, req))
    case NotFound =>
      var c := Customer(s.nextCustomerId, req.customerName, req.email, req.phone);
      assert c.id !in s.customers;
      FreshEmailInsert(s.customers, c.id, c);
      var s1 := s.(customers := s.customers[c.id := c], nextCustomerId := s.nextCustomerId + 1);
      Success(SaveOrder(s1, c.id, req))
  }

  /** What the status page is given: the order, or an error message. */
  datatype StatusView = OrderView(order: Order) | ErrorView(error: string)

  const NOT_FOUND_PREFIX: string := "Order not found with ID: "

  /** `checkOrderStatus`: total lookup of an order by id. */
  function CheckOrderStatus(s: State, id: Int32): (r: StatusView)
    ensures r.OrderView? <==> exists i :: 0 <= i < |s.orders| && s.orders[i].id == id
    ensures r.OrderView? ==> r.order in s.orders && r.order.id == id
    ensures r.ErrorView? ==>
      && |r.error| > |NOT_FOUND_PREFIX|
      && r.error[..|NOT_FOUND_PREFIX|] == NOT_FOUND_PREFIX
      && r.error[|NOT_FOUND_PREFIX|..] == IntToString(id)
      // consequences of the clause above, via IntToString's contract and its round trip:
      // the id is in standard form and can be read back from the message
      && CanonicalInt(r.error[|NOT_FOUND_PREFIX|..])
      && ParseInt(r.error[|NOT_FOUND_PREFIX|..]) == Some(id as int)
  {
    match FindOrder(s.orders, id)
    case Some(o) => OrderView(o)
    case None =>
      var msg := NOT_FOUND_PREFIX + IntToString(id);
      assert msg[|NOT_FOUND_PREFIX|..] == IntToString(id);
      IntToStringRoundTrip(id);
      ErrorView(msg)
  }

  /** In a valid store the status page shows exactly the stored order with the requested id. */
  lemma CheckOrderStatusShowsStoredOrder(s: State, i: int)
    requires Valid(s)
    requires 0 <= i < |s.orders| && INT32_MIN <= s.orders[i].id <= INT32_MAX
    ensures CheckOrderStatus(s, s.orders[i].id as Int32) == OrderView(s.orders[i])
  {
    FindOrderUnique(s.orders, i);
  }
}

=== FILE: sessions.dfy ===
/** Consequences of placing orders one after another: what a sequence of submissions leaves in
    the store, how a placed order shows up on the status page, and three concrete example
    submissions. */
module Sessions {
  import opened Base
  import opened Catalog
  import opened Store
  import opened OrderController

  /** What a sequence of submissions leaves: the final store and how many were rejected. */
  datatype Outcome = Outcome(state: State, rejected: nat)

  /** Number of submissions whose email is held by two or more of the given customers. */
  function CountAmbiguous(cs: map<int, Customer>, reqs: seq<Request>): nat
    decreases |reqs|
  {
    if |reqs| == 0 then 0
    else (if |Matches(cs, reqs[0].email)| >= 2 then 1 else 0) + CountAmbiguous(cs, reqs[1..])
  }

  /** A successful submission leaves the customers of every other email as they were, and
      leaves exactly one customer with its own email. */
  lemma MatchesAfterPlaceOrder(s: State, req: Request, e: string)
    requires Valid(s) && PlaceOrder(s, req).Success?
    ensures e != req.email ==>
      Matches(PlaceOrder(s, req).value.customers, e) == Matches(s.customers, e)
    ensures e == req.email ==> |Matches(PlaceOrder(s, req).value.customers, e)| == 1
  {
    var cs := s.customers;
    var s' := PlaceOrder(s, req).value;
    var cs' := s'.customers;
    var c := LastOrder(s').customerId;
    if Matches(cs, req.email) == {} {
      forall id ensures id in Matches(cs', e) <==> id in Matches(cs, e) || (id == c && e == req.email) {
      }
      if e == req.email {
        forall id ensures id in Matches(cs', e) <==> id in {c} {
          assert id !in Matches(cs, e);
        }
        assert Matches(cs', e) == {c};
      }
    } else {
      forall id ensures id in Matches(cs', e) <==> id in Matches(cs, e) {
        if id in cs && id != c {
          assert cs'[id] == cs[id];
        }
      }
      assert Matches(cs', e) == Matches(cs, e);
    }
  }

  /** A successful submission does not change which emails are ambiguous. */
  lemma {:induction false} CountAmbiguousKept(s: State, req: Request, reqs: seq<Request>)
    requires Valid(s) && PlaceOrder(s, req).Success?
    ensures CountAmbiguous(PlaceOrder(s, req).value.customers, reqs) == CountAmbiguous(s.customers, reqs)
    decreases |reqs|
  {
    if |reqs| > 0 {
      MatchesAfterPlaceOrder(s, req, reqs[0].email);
      CountAmbiguousKept(s, req, reqs[1..]);
    }
  }

  /** Handles submissions one after another. Each is its own request: a rejected one writes
      nothing, and the following ones are still handled. The rejected ones are exactly those
      whose email two or more customers of the starting store share. */
  function Run(s: State, reqs: seq<Request>): (r: Outcome)
    requires Valid(s)
    decreases |reqs|
    ensures Valid(r.state)
    ensures r.rejected <= |reqs|
    ensures r.rejected == CountAmbiguous(s.customers, reqs)
    ensures |r.state.orders| == |s.orders| + |reqs| - r.rejected
    ensures r.state.orders[..|s.orders|] == s.orders
  {
    if |reqs| == 0 then Outcome(s, 0)
    else
      match PlaceOrder(s, reqs[0])
      case Failure(_) =>
        var r := Run(s, reqs[1..]);
        Outcome(r.state, r.rejected + 1)
      case Success(s1) =>
        var r := Run(s1, reqs[1..]);
        assert r.state.orders[..|s.orders|] == r.state.orders[..|s1.orders|][..|s.orders|];
        CountAmbiguousKept(s, reqs[0], reqs[1..]);
        r
  }

  /** Emails of a sequence of submissions. */
  function RequestEmails(reqs: seq<Request>): set<string> {
    set i | 0 <= i < |reqs| :: reqs[i].email
  }

  lemma RequestEmailsCons(reqs: seq<Request>)
    requires |reqs| > 0
    ensures RequestEmails(reqs) == {reqs[0].email} + RequestEmails(reqs[1..])
  {
    var tail := reqs[1..];
    forall e | e in RequestEmails(reqs) ensures e in {reqs[0].email} + RequestEmails(tail) {
      var i :| 0 <= i < |reqs| && reqs[i].email == e;
      if i > 0 {
        assert tail[i - 1].email == e;
      }
    }
    forall e | e in RequestEmails(tail) ensures e in RequestEmails(reqs) {
      var i :| 0 <= i < |tail| && tail[i].email == e;
      assert reqs[i + 1].email == e;
    }
  }

  /** One submission keeps "one customer per email" and adds the submitted email to those on
      file. */
  lemma PlaceOrderStep(s: State, req: Request)
    requires Valid(s) && AtMostOnePerEmail(s.customers)
    ensures PlaceOrder(s, req).Success?
    ensures Valid(PlaceOrder(s, req).value)
    ensures AtMostOnePerEmail(PlaceOrder(s, req).value.customers)
    ensures Emails(PlaceOrder(s, req).value.customers) == Emails(s.customers) + {req.email}
  {
  }

  /** Starting from a store with one customer per email, no submission is rejected, the
      submitted emails are all on file, and there is still exactly one customer per email. */
  lemma {:induction false} RunKeepsOneCustomerPerEmail(s: State, reqs: seq<Request>)
    requires Valid(s) && AtMostOnePerEmail(s.customers)
    ensures Run(s, reqs).rejected == 0
    ensures AtMostOnePerEmail(Run(s, reqs).state.customers)
    ensures Emails(Run(s, reqs).state.customers) == Emails(s.customers) + RequestEmails(reqs)
    ensures |Run(s, reqs).state.customers| == |Emails(Run(s, reqs).state.customers)|
    decreases |reqs|
  {
    if |reqs| > 0 {
      PlaceOrderStep(s, reqs[0]);
      var s1 := PlaceOrder(s, reqs[0]).value;
      assert Run(s, reqs) == Run(s1, reqs[1..]);
      RunKeepsOneCustomerPerEmail(s1, reqs[1..]);
      RequestEmailsCons(reqs);
    }
    CustomerCountIsEmailCount(Run(s, reqs).state.customers);
  }

  /** From an empty store, n submissions leave n orders and one customer per distinct email. */
  lemma CustomersAreDistinctEmails(reqs: seq<Request>)
    ensures Run(Empty, reqs).rejected == 0
    ensures |Run(Empty, reqs).state.orders| == |reqs|
    ensures Emails(Run(Empty, reqs).state.customers) == RequestEmails(reqs)
    ensures |Run(Empty, reqs).state.customers| == |RequestEmails(reqs)|
  {
    EmptyIsValid();
    assert Emails(Empty.customers) == {};
    RunKeepsOneCustomerPerEmail(Empty, reqs);
  }

  /** After a submission, the status page shows the new order under its id and answers every
      other id exactly as before. */
  lemma PlacedOrderIsVisible(s: State, req: Request, id: Int32)
    requires Valid(s) && PlaceOrder(s, req).Success?
    ensures var s' := PlaceOrder(s, req).value;
      CheckOrderStatus(s', id) ==
        (if LastOrder(s').id == id then OrderView(LastOrder(s')) else CheckOrderStatus(s, id))
  {
    var s' := PlaceOrder(s, req).value;
    var o := LastOrder(s');
    assert s'.orders == s.orders + [o];
    FindOrderAppend(s.orders, o, id);
    if o.id == id {
      assert forall i :: 0 <= i < |s.orders| ==> s.orders[i].id != id;
    }
  }

  // Example submissions

  const Alice := Request("Alice", "a@x.com", "555", 1, 3)
  const AliceAgain := Request("Alice B.", "a@x.com", "555", 1, 1)

  /** A first order from a new email creates its customer and a pending Margherita order of
      3 x 199. */
  lemma FirstOrderScenario()
    ensures PlaceOrder(Empty, Alice).Success?
    ensures var s := PlaceOrder(Empty, Alice).value;
      && |s.customers| == 1 && |s.orders| == 1
      && s.orders[0].pizzaName == Some("Margherita")
      && s.orders[0].totalPrice == 597
      && s.orders[0].status == Pending
      && s.customers[s.orders[0].customerId].email == "a@x.com"
  {
    EmptyIsValid();
    var s := PlaceOrder(Empty, Alice).value;
    assert Matches(Empty.customers, Alice.email) == {};
  }

  /** A second order from the same email renames the customer and adds a second order. */
  lemma RepeatOrderScenario()
    ensures var s1 := PlaceOrder(Empty, Alice).value;
      Valid(s1) && PlaceOrder(s1, AliceAgain).Success? &&
      var s2 := PlaceOrder(s1, AliceAgain).value;
      && |s2.customers| == 1 && |s2.orders| == 2
      && s2.orders[1].customerId == s2.orders[0].customerId
      && s2.customers[s2.orders[1].customerId].name == "Alice B."
  {
    EmptyIsValid();
    var s1 := PlaceOrder(Empty, Alice).value;
    assert AtMostOnePerEmail(s1.customers);
    var s2 := PlaceOrder(s1, AliceAgain).value;
    assert Alice.email in Emails(s1.customers);
  }

  /** An unknown pizza id is accepted with no name and a zero total. */
  lemma UnknownPizzaScenario(s: State, name: string, email: string, phone: string)
    requires Valid(s) && AtMostOnePerEmail(s.customers)
    ensures PlaceOrder(s, Request(name, email, phone, 99, 2)).Success?
    ensures var o := LastOrder(PlaceOrder(s, Request(name, email, phone, 99, 2)).value);
      o.pizzaName == None && o.totalPrice == 0 && o.status == Pending
  {
  }
}

=== FILE: store.dfy ===
/** The persisted entities and the abstract store behind the two repositories: customers keyed by
    their store-assigned id, orders in insertion order, and the next id each table will assign. */
module Store {
  import opened Base

  /** Order lifecycle states. Only `Pending` is ever produced by the controller. */
  datatype OrderStatus = Pending | Shipped | Delivered

  datatype Customer = Customer(id: int, name: string, email: string, phone: string)

  /** An order row. `pizzaName` and `totalPrice` are snapshots taken when the order is placed;
      `customerId` references the customer row. */
  datatype Order = Order(
    id: int,
    customerId: int,
    pizzaId: Int32,
    pizzaName: Option<string>,
    quantity: Int32,
    totalPrice: int,
    status: OrderStatus)

  datatype State = State(
    customers: map<int, Customer>,
    orders: seq<Order>,
    nextCustomerId: int,
    nextOrderId: int)

  /** The store before any order was placed; identity columns start at 1. */
  const Empty: State := State(map[], [], 1, 1)

  /** Order ids strictly increase along the sequence, so they are distinct. */
  predicate IdsIncreasing(orders: seq<Order>) {
    forall i, j :: 0 <= i < j < |orders| ==> orders[i].id < orders[j].id
  }

  /** Store invariant: every customer is filed under its own id, every id already handed out is
      below the table's counter, and every order references a stored customer. */
  predicate Valid(s: State) {
    && 1 <= s.nextCustomerId
    && 1 <= s.nextOrderId
    && (forall k :: k in s.customers ==> 1 <= k < s.nextCustomerId && s.customers[k].id == k)
    && (forall i :: 0 <= i < |s.orders| ==>
          1 <= s.orders[i].id < s.nextOrderId && s.orders[i].customerId in s.customers)
    && IdsIncreasing(s.orders)
  }

  lemma EmptyIsValid()
    ensures Valid(Empty)
  {
  }

  /** Ids of all customers stored with the given email. */
  function Matches(cs: map<int, Customer>, email: string): set<int> {
    set id | id in cs && cs[id].email == email
  }

  /** The customer stored under `id` has the given email. */
  predicate HasEmail(cs: map<int, Customer>, id: int, email: string) {
    id in Matches(cs, email)
  }

  /** All emails of stored customers. */
  function Emails(cs: map<int, Customer>): set<string> {
    set id | id in cs :: cs[id].email
  }

  /** No two stored customers share an email. The schema does not enforce this. */
  predicate AtMostOnePerEmail(cs: map<int, Customer>) {
    forall a, b :: a in cs && b in cs && a != b ==> cs[a].email != cs[b].email
  }

  /** Overwriting a stored customer with a record of the same email keeps the set of emails
      and keeps emails unique. */
  lemma SameEmailUpdate(cs: map<int, Customer>, k: int, c: Customer)
    requires k in cs && c.email == cs[k].email
    ensures Emails(cs[k := c]) == Emails(cs)
    ensures AtMostOnePerEmail(cs) ==> AtMostOnePerEmail(cs[k := c])
  {
    var cs' := cs[k := c];
    assert forall id :: id in cs' ==> cs'[id].email == cs[id].email;
    assert forall e :: e in Emails(cs) ==> e in Emails(cs') by {
      forall e | e in Emails(cs) ensures e in Emails(cs') {
        var id :| id in cs && cs[id].email == e;
        assert cs'[id].email == e;
      }
    }
  }

  /** Inserting a customer under a fresh id with an email no stored customer has adds exactly
      that email and keeps emails unique. */
  lemma FreshEmailInsert(cs: map<int, Customer>, k: int, c: Customer)
    requires k !in cs && Matches(cs, c.email) == {}
    ensures c.email !in Emails(cs)
    ensures Emails(cs[k := c]) == Emails(cs) + {c.email}
    ensures |cs[k := c]| == |cs| + 1
    ensures AtMostOnePerEmail(cs) ==> AtMostOnePerEmail(cs[k := c])
  {
    var cs' := cs[k := c];
    assert forall id :: id in cs ==> cs[id].email != c.email by {
      forall id | id in cs ensures cs[id].email != c.email {
        assert id !in Matches(cs, c.email);
      }
    }
    assert forall e :: e in Emails(cs) ==> e in Emails(cs') by {
      forall e | e in Emails(cs) ensures e in Emails(cs') {
        var id :| id in cs && cs[id].email == e;
        assert cs'[id].email == e;
      }
    }
    assert cs'[k].email == c.email;
  }

  /** Removing one customer from a store with unique emails removes exactly its email. */
  lemma RemoveCustomer(cs: map<int, Customer>, k: int)
    requires k in cs && AtMostOnePerEmail(cs)
    ensures |cs - {k}| == |cs| - 1
    ensures AtMostOnePerEmail(cs - {k})
    ensures cs[k].email !in Emails(cs - {k})
    ensures Emails(cs) == Emails(cs - {k}) + {cs[k].email}
  {
    var rest := cs - {k};
    assert cs == rest[k := cs[k]];
    forall id ensures id !in Matches(rest, cs[k].email) {
      if id in rest {
        assert id != k;
      }
    }
    assert Matches(rest, cs[k].email) == {};
    FreshEmailInsert(rest, k, cs[k]);
  }

  /** With unique emails, there are exactly as many customers as emails on file. */
  lemma {:induction false} CustomerCountIsEmailCount(cs: map<int, Customer>)
    requires AtMostOnePerEmail(cs)
    ensures |cs| == |Emails(cs)|
    decreases |cs|
  {
    if k :| k in cs {
      RemoveCustomer(cs, k);
      CustomerCountIsEmailCount(cs - {k});
    } else {
      assert forall j :: j !in cs.Keys;
      assert cs.Keys == {};
      assert |cs| == |cs.Keys|;
      assert Emails(cs) == {};
    }
  }

  /** First id in [lo, hi) whose customer has the given email. */
  function Scan(cs: map<int, Customer>, email: string, lo: int, hi: int): (r: Option<int>)
    decreases hi - lo
    ensures r.Some? ==> lo <= r.value < hi && HasEmail(cs, r.value, email)
    ensures r.Some? ==> forall j :: lo <= j < r.value ==> !HasEmail(cs, j, email)
    ensures r.None? ==> forall j :: lo <= j < hi ==> !HasEmail(cs, j, email)
  {
    if lo >= hi then None
    else if HasEmail(cs, lo, email) then Some(lo)
    else Scan(cs, email, lo + 1, hi)
  }

  /** Outcome of the customer lookup by email, which returns an optional customer. A query of
      that shape that matches more than one row raises an error instead of answering. */
  datatype Lookup = NotFound | Found(customer: Customer) | Ambiguous

  lemma TwoElements(a: int, b: int, s: set<int>)
    requires a in s && b in s && a != b
    ensures |s| >= 2
  {
    var rest := s - {a};
    assert b in rest;
    assert |rest| == |s| - 1;
  }

  lemma MatchesInRange(s: State, email: string)
    requires Valid(s)
    ensures forall j :: j in Matches(s.customers, email) ==>
              1 <= j < s.nextCustomerId && HasEmail(s.customers, j, email)
  {
  }

  /** The customer repository's lookup by email. */
  function FindByEmail(s: State, email: string): (r: Lookup)
    requires Valid(s)
    ensures r.NotFound? <==> Matches(s.customers, email) == {}
    ensures r.Found? ==> Matches(s.customers, email) == {r.customer.id}
    ensures r.Found? ==> r.customer.id in s.customers && s.customers[r.customer.id] == r.customer
    ensures r.Ambiguous? <==> |Matches(s.customers, email)| >= 2
  {
    var cs := s.customers;
    match Scan(cs, email, 1, s.nextCustomerId)
    case None =>
      MatchesInRange(s, email);
      assert forall j :: 1 <= j < s.nextCustomerId ==> j !in Matches(cs, email);
      NotFound
    case Some(id) =>
      assert id in Matches(cs, email);
      match Scan(cs, email, id + 1, s.nextCustomerId)
      case None =>
        MatchesInRange(s, email);
        assert forall j :: 1 <= j < s.nextCustomerId && j != id ==> j !in Matches(cs, email);
        assert Matches(cs, email) == {id};
        Found(cs[id])
      case Some(id2) =>
        assert id2 in Matches(cs, email);
        TwoElements(id, id2, Matches(cs, email));
        Ambiguous
  }

  /** The order repository's lookup by id: the first order carrying it. */
  function FindOrder(orders: seq<Order>, id: int): (r: Option<Order>)
    decreases |orders|
    ensures r.Some? ==> r.value in orders && r.value.id == id
    ensures r.None? <==> forall i :: 0 <= i < |orders| ==> orders[i].id != id
  {
    if |orders| == 0 then None
    else if orders[0].id == id then Some(orders[0])
    else
      var r := FindOrder(orders[1..], id);
      assert forall i :: 1 <= i < |orders| ==> orders[i] == orders[1..][i - 1];
      r
  }

  /** Appending an order does not change what lookups of earlier ids find. */
  lemma {:induction false} FindOrderAppend(orders: seq<Order>, o: Order, id: int)
    ensures FindOrder(orders + [o], id) ==
      (if FindOrder(orders, id).Some? then FindOrder(orders, id)
       else if o.id == id then Some(o) else None)
    decreases |orders|
  {
    if |orders| > 0 && orders[0].id != id {
      assert (orders + [o])[1..] == orders[1..] + [o];
      FindOrderAppend(orders[1..], o, id);
    }
  }

  /** No two orders share an id. */
  predicate IdsDistinct(orders: seq<Order>) {
    forall i, j :: 0 <= i < j < |orders| ==> orders[i].id != orders[j].id
  }

  /** With distinct ids, the order found is the one order that carries the id. */
  lemma {:induction false} FindOrderUnique(orders: seq<Order>, i: int)
    requires IdsDistinct(orders)
    requires 0 <= i < |orders|
    ensures FindOrder(orders, orders[i].id) == Some(orders[i])
    decreases |orders|
  {
    if i > 0 {
      assert orders[0].id != orders[i].id;
      assert IdsDistinct(orders[1..]);
      assert orders[1..][i - 1] == orders[i];
      FindOrderUnique(orders[1..], i - 1);
    }
  }
}
